=== FILE: README.md ===
# GitSearch search pipeline and repository classification, in Dafny

This project models the logic under GitSearch, an Android client that searches
GitHub users and lists a user's repositories. Two pieces are modelled as pure
functions over abstract inputs:

* **`GitHubRepository`** turns the outcome of an HTTP call into a Kotlin
  `Result`. The outcome is an escaped exception, or a status code with a status
  message, an optional body and the `X-RateLimit-Remaining` header. The model
  gives the header already parsed by `toIntOrNull`, as `Option<int>`. Each
  failure carries an exact message. The two endpoints differ in three ways:
  * only `searchUsers` recognises a rate-limited 403;
  * they use different 404 texts;
  * they use different network-error texts.
* **`MainViewModel`** runs the search pipeline
  `_searchQuery.debounce(300).distinctUntilChanged().flatMapLatest { … }.collect { … }`
  and the `fetchRepositories` state.
  * Keystrokes are a timestamped trace. The trace starts with the state flow's
    initial `""`.
  * `debounce` and `distinctUntilChanged` are filters over that trace (module `Flow`).
  * `flatMapLatest` is a state machine. Each settled value starts a new
    generation. A lookup's completion is an event tagged with its generation.
    A completion whose tag is not the current generation belongs to a cancelled
    inner flow and has no effect.

Modules:

| module | file | models |
|---|---|---|
| `Wrappers` | wrappers.dfy | Kotlin nullables (`Option`) and `kotlin.Result` with a nullable throwable message |
| `Api` | api.dfy | the data classes `Repository`, `UserDto`, `UserSearchResponse` (the source's `UserSearchResponseDto`), and an abstract HTTP `Response` |
| `GitHubRepository` | repository.dfy | `searchUsers`, `getUserRepositories`, and which cause each failure message names |
| `Flow` | flow.dfy | `debounce`, `distinctUntilChanged` (and the equal-value conflation of `MutableStateFlow`) |
| `MainViewModel` | viewmodel.dfy | `_searchQuery` and `onSearchQueryChanged`, the generation-stamped search state, `fetchRepositories` and `UiState` |
| `ViewModelProperties` | viewmodel_properties.dfy | the pipeline's properties over whole event sequences and keystroke traces |

Points where the model follows the code exactly:

* **Failures empty the list.** A failed lookup or an exception sets `errorMessage`
  and publishes an *empty* `searchResults`
  (`MainViewModel.kt` lines 84-85 and 92-93, collected at line 99). The previous
  list is not kept: one might expect the previous list to survive a failure, but
  the code empties it.
* **Equal writes do not restart the debounce timer.** `MutableStateFlow` ignores a
  write equal to its current value. So typing a value equal to the current one
  emits nothing and does not restart `debounce`'s timer. `QueryFlow`
  proves that the query flow is the keystroke trace after `distinctUntilChanged`.
  A keystroke trace with a repeat can therefore let an earlier value settle.
* **Null exception messages.** A null `localizedMessage` appears in the search's
  network-error text as the four characters `null`, because that is how a Kotlin
  string template renders it (stated by `GitHubRepository.SearchUsers`).
* **`isSuccessful`** is OkHttp's: status 200..299.
* **`isBlank`** is Kotlin's `Char.isWhitespace` over every character.
* **Fetches are not ordered.** `fetchRepositories` launches a coroutine per call and
  has no generation check, so whichever fetch finishes last decides the state
  (`LastFinishedFetchWins`). Its third `when` branch, "An unexpected error
  occurred.", cannot be reached, because a `Result` is either a success or a failure.

## Model

| member | source | states |
|---|---|---|
| GitHubRepository.SearchUsers | app/src/main/java/com/example/gitsearch/data/GitHubRepository.kt:25-48 | success exactly for a 2xx reply, carrying the body's items or the empty list; failure messages are never null; a 403 whose header parses to 0 is "GitHub API rate limit exceeded"; a 403 with the header absent, non-numeric or nonzero is "Error: " + status message; 404 is "No users found" whatever the header; other non-2xx is "Error: " + status message; an exception is "Network error: " + its message, where a null message appears as the four characters "null" |
| GitHubRepository.GetUserRepositories | app/src/main/java/com/example/gitsearch/data/GitHubRepository.kt:8-24 | success exactly for a 2xx reply, carrying the body or the empty list; 404 is "User not found"; every other non-2xx, 403 with a zero header included, is "Error: " + status message; an exception is exactly "Network error" |
| GitHubRepository.SearchMessageNamesCause | app/src/main/java/com/example/gitsearch/data/GitHubRepository.kt:30-46 | the search fails exactly when the response is not 2xx. Parsing the failure message recovers the cause decided from the status and header alone: rate limit, not found, API error with the server's status message, or network error with the exception's detail. The texts never collide |
| GitHubRepository.ReposMessageNamesCause | app/src/main/java/com/example/gitsearch/data/GitHubRepository.kt:11-22 | the listing fails exactly when the response is not 2xx; parsing its failure message recovers not found, API error with the status message, or a network error that carries no detail |
| GitHubRepository.EndpointsDifferOnlyAt404AndRateLimit | app/src/main/java/com/example/gitsearch/data/GitHubRepository.kt:15-42 | for the same non-2xx reply both endpoints fail with the same message, except on 404 (different texts) and on a 403 whose header is 0, which only the search reports as rate-limited |
| GitHubRepository.NetworkErrorsDiffer | app/src/main/java/com/example/gitsearch/data/GitHubRepository.kt:21-46 | for the same exception the two endpoints report different network-error messages |
| Flow.Debounce | app/src/main/java/com/example/gitsearch/viewmodel/MainViewModel.kt:64 | debounce passes on a time-ordered sub-trace of its input that ends with the input's last emission |
| Flow.DebounceKeeps | app/src/main/java/com/example/gitsearch/viewmodel/MainViewModel.kt:64 | an emission passes debounce if and only if it is the last one, or the next one arrives at least 300 units later |
| Flow.DebounceBurst | app/src/main/java/com/example/gitsearch/viewmodel/MainViewModel.kt:64 | when every emission follows the previous one by less than the timeout, only the last one passes |
| Flow.DistinctAfter | app/src/main/java/com/example/gitsearch/viewmodel/MainViewModel.kt:65 | the output is a time-ordered sub-trace with no two adjacent equal values, whose first value differs from the value seen before |
| Flow.DistinctKeeps | app/src/main/java/com/example/gitsearch/viewmodel/MainViewModel.kt:65 | an emission passes if and only if its value differs from the one just before it |
| Flow.DistinctUntilChanged | app/src/main/java/com/example/gitsearch/viewmodel/MainViewModel.kt:65 | the first emission always passes; the output is ordered and has no two adjacent equal values; the last value of the input is the last value of the output |
| Flow.DistinctLast | app/src/main/java/com/example/gitsearch/viewmodel/MainViewModel.kt:65 | the input's last value is the output's last value, or, when nothing passes, every value equalled the one seen before the trace began |
| Flow.DistinctIdempotent | app/src/main/java/com/example/gitsearch/viewmodel/MainViewModel.kt:65 | applying distinctUntilChanged twice is the same as applying it once |
| MainViewModel.OnSearchQueryChanged | app/src/main/java/com/example/gitsearch/viewmodel/MainViewModel.kt:104-106 | the query always becomes the new text. It is emitted, with its time, if and only if it differs from the current value; earlier emissions are kept |
| MainViewModel.TypeAllIsDistinct | app/src/main/java/com/example/gitsearch/viewmodel/MainViewModel.kt:104-106 | a trace of query changes emits exactly what distinctUntilChanged passes on, measured from the holder's current value |
| MainViewModel.QueryFlow | app/src/main/java/com/example/gitsearch/viewmodel/MainViewModel.kt:54-64 | the flow that debounce sees is the initial "" followed by the keystrokes, with repeats of the current value dropped, and it stays time-ordered |
| MainViewModel.Settled | app/src/main/java/com/example/gitsearch/viewmodel/MainViewModel.kt:63-66 | at least one value reaches flatMapLatest, no two consecutive ones are equal, and the last one is always the final text typed (the initial "" when nothing was typed) |
| MainViewModel.Publish | app/src/main/java/com/example/gitsearch/viewmodel/MainViewModel.kt:77-94 | success clears the error and publishes exactly the returned list. Failure publishes the empty list and the failure message, or "Unknown error" when it is null. An exception publishes the empty list and its message, or "Unexpected error". A cancellation leaves both list and message unchanged |
| MainViewModel.Step | app/src/main/java/com/example/gitsearch/viewmodel/MainViewModel.kt:66-99 | every settled value starts a new generation. A blank value clears the error and empties the list without a lookup. A non-blank one issues one lookup stamped with the new generation, leaves searchResults and errorMessage unchanged and puts the new generation in flight, so its completion is the one published. A completion for any other generation, or one already applied, changes nothing |
| MainViewModel.Run | app/src/main/java/com/example/gitsearch/viewmodel/MainViewModel.kt:61-101 | over any event sequence, the generation advances once per settled value. Exactly one lookup is issued per non-blank settled value. Lookups carry non-blank queries and fresh, strictly increasing generations |
| MainViewModel.FetchRepositories | app/src/main/java/com/example/gitsearch/viewmodel/MainViewModel.kt:43-52 | publishes Loading, then Success with the returned repositories, or Error with the failure message or "Unknown error" |
| ViewModelProperties.StaleCompletionsIgnored | app/src/main/java/com/example/gitsearch/viewmodel/MainViewModel.kt:66 | completions of superseded generations change neither searchResults nor errorMessage, and issue nothing |
| ViewModelProperties.OutOfOrderCompletion | app/src/main/java/com/example/gitsearch/viewmodel/MainViewModel.kt:66-99 | lookup A is issued before lookup B and finishes after it: both are issued with their generations, A's outcome is discarded, and the final state is B's outcome applied to the state before both |
| ViewModelProperties.LateCompletionAfterLatest | app/src/main/java/com/example/gitsearch/viewmodel/MainViewModel.kt:66-95 | once the current lookup has ended, a late completion of an earlier generation leaves the published state exactly as that lookup left it |
| ViewModelProperties.BlankSupersedesInFlight | app/src/main/java/com/example/gitsearch/viewmodel/MainViewModel.kt:66-69 | a lookup still in flight when the input is cleared never overwrites the cleared state (empty list, no error), however it ends |
| ViewModelProperties.CompletionAppliedOnce | app/src/main/java/com/example/gitsearch/viewmodel/MainViewModel.kt:71-95 | a second completion of the same generation has no effect |
| ViewModelProperties.CancellationNeverReported | app/src/main/java/com/example/gitsearch/viewmodel/MainViewModel.kt:88-90 | cancellations never set an error message or publish a list |
| ViewModelProperties.LookupsAreNonBlankSettles | app/src/main/java/com/example/gitsearch/viewmodel/MainViewModel.kt:66-75 | the lookups issued for a sequence of settled values are exactly its non-blank values, in order; blank values cause no repository call |
| ViewModelProperties.QuickValueNeverSettles | app/src/main/java/com/example/gitsearch/viewmodel/MainViewModel.kt:63-65 | a query emission followed by another less than 300 units later never reaches flatMapLatest; the last emission always passes debounce |
| ViewModelProperties.RepeatNeverSettles | app/src/main/java/com/example/gitsearch/viewmodel/MainViewModel.kt:65 | the second of two equal consecutive debounced values is dropped, so it causes neither a lookup nor the blank handling |
| ViewModelProperties.TypingBurst | app/src/main/java/com/example/gitsearch/viewmodel/MainViewModel.kt:63-74 | a burst of changing keystrokes, each less than 300 units after the previous one, settles only the final text, which is looked up once, as generation 1, when it is not blank |
| ViewModelProperties.TorvaldsTyping | app/src/main/java/com/example/gitsearch/viewmodel/MainViewModel.kt:63-74 | typing "t", "to", "tor", "torvalds" 100 units apart issues exactly one lookup, for "torvalds" |
| ViewModelProperties.TorvaldsLookup | app/src/main/java/com/example/gitsearch/viewmodel/MainViewModel.kt:77-80 | a 200 reply listing torvalds publishes exactly that list and no error |
| ViewModelProperties.SearchResponsePublished | app/src/main/java/com/example/gitsearch/viewmodel/MainViewModel.kt:77-86 | fed by searchUsers, the current lookup publishes the reply's items on 2xx. A rate-limited 403 and a 404 publish their messages with an empty list. "Unknown error" is never shown |
| ViewModelProperties.FetchFromResponse | app/src/main/java/com/example/gitsearch/viewmodel/MainViewModel.kt:45-50 | fed by getUserRepositories, the fetch shows Loading, then the repositories (empty when there is no body), "User not found" on 404, or "Network error" on an exception. It never shows "Unknown error" |
| ViewModelProperties.LastFetchEventDecides | app/src/main/java/com/example/gitsearch/viewmodel/MainViewModel.kt:43-52 | with no generation check, after any history of launches and finished fetches the state is decided by the last event alone, whatever the state was before |
| ViewModelProperties.LastFinishedFetchWins | app/src/main/java/com/example/gitsearch/viewmodel/MainViewModel.kt:43-52 | whichever fetch finishes last decides the state, whatever was launched before it |
| ViewModelProperties.LoadingAfterLaunch | app/src/main/java/com/example/gitsearch/viewmodel/MainViewModel.kt:44-45 | right after a launch the state is Loading, whatever came before |

## Left out

- HTTP and JSON: the Retrofit interface, Gson parsing and the `per_page` query parameter (default 5) are library calls. The response arrives as an abstract value.
- `toIntOrNull` parsing of `X-RateLimit-Remaining`: it is taken as already parsed, `None` for absent or non-numeric. Its 32-bit range is not modelled.
- `Log.d` calls, and the text of `localizedMessage` and `message`: these are logging and opaque strings.
- The Compose UI, navigation and image loading in `MainActivity.kt`: presentation only. The card click there changes only local UI state.
- Coroutine machinery: `viewModelScope`, `Dispatchers.IO`, threads and real cancellation. They are replaced by an explicit keystroke trace and generation-tagged completion events. Thread safety is not modelled.
- Flow.Debounce: it says which values pass but not when. The 300-unit delay before a value is passed on is not modelled, and neither is a collector too slow to see every state-flow value. The model assumes strictly increasing keystroke times.
- Flow.DebounceKeeps: a value followed by another exactly 300 units later is taken to survive. The source's timer race at that instant is not modelled.
- MainViewModel.Publish: a cancellation reported for the current generation only ends that lookup. Teardown of `viewModelScope` is not modelled.

=== FILE: api.dfy ===
/** The records exchanged with GitHub's REST API, and an abstract view of
    the HTTP exchange that the Retrofit service performs. */
module Api {
  import opened Wrappers

  /** One repository of `GET /users/{username}/repos`. */
  datatype Repository = Repository(
    name: string,
    stars: int,
    language: Option<string>,
    description: Option<string>,
    url: string)

  /** One user of `GET /search/users`. */
  datatype UserDto = UserDto(login: string, avatarUrl: string)

  /** The body of `GET /search/users`. */
  datatype UserSearchResponse = UserSearchResponse(
    totalCount: int,
    incompleteResults: bool,
    items: seq<UserDto>)

  /** The outcome of one call into the HTTP client, with body type `B`.
      `Threw` is an exception escaping the call; its `localizedMessage` may be
      null. `Replied` is an HTTP response: its status code, status message,
      parsed body (absent when the client produced none), and the
      `X-RateLimit-Remaining` header already passed through `toIntOrNull`
      (absent or non-numeric header: `None`). */
  datatype Response<+B> =
    | Threw(localizedMessage: Option<string>)
    | Replied(code: int, statusMessage: string, body: Option<B>, rateLimitRemaining: Option<int>)

  /** OkHttp's `isSuccessful`: the status code lies in 200..299. */
  predicate IsSuccessful(code: int) {
    200 <= code <= 299
  }

  /** How a Kotlin string template renders a nullable string: `null` becomes
      the four characters "null". */
  function Interpolate(s: Option<string>): string
  {
    s.GetOr("null")
  }
}

=== FILE: flow.dfy ===
/** The two kotlinx.coroutines flow operators of the search pipeline, over a
    finite, timestamped trace of emitted values. Times are abstract clock
    units (milliseconds in the source) and strictly increase along a trace. */
module Flow {
  import opened Wrappers

  /** A value emitted by a flow at a point in time. */
  datatype Emission = Emission(time: int, value: string)

  ghost predicate StrictlyIncreasing(es: seq<Emission>) {
    forall i, j :: 0 <= i < j < |es| ==> es[i].time < es[j].time
  }

  /** Each emission later than the one before it: the trace is strictly
      increasing. */
  lemma {:induction false} IncreasingBySteps(es: seq<Emission>)
    requires forall i :: 0 < i < |es| ==> es[i - 1].time < es[i].time
    ensures StrictlyIncreasing(es)
    decreases |es|
  {
    if |es| > 1 {
      IncreasingBySteps(es[1..]);
      forall j | 0 < j < |es| ensures es[0].time < es[j].time {
        if j > 1 { assert es[1..][0] == es[1] && es[1..][j - 1] == es[j]; }
      }
      forall i, j | 0 <= i < j < |es| ensures es[i].time < es[j].time {
        if i > 0 { assert es[1..][i - 1] == es[i] && es[1..][j - 1] == es[j]; }
      }
    }
  }

  /** Every element of a sub-trace of `es[1..]` is later than `es[0]`. */
  lemma {:induction false} LaterThanHead(es: seq<Emission>, rest: seq<Emission>)
    requires StrictlyIncreasing(es) && |es| > 0
    requires forall x :: x in rest ==> x in es[1..]
    ensures forall x :: x in rest ==> es[0].time < x.time
  {
    forall x | x in rest ensures es[0].time < x.time {
      var k :| 0 <= k < |es[1..]| && es[1..][k] == x;
      assert es[k + 1] == x;
    }
  }

  /** Dropping the first emission keeps a trace increasing. */
  lemma {:induction false} TailIncreasing(es: seq<Emission>)
    requires StrictlyIncreasing(es) && |es| > 0
    ensures StrictlyIncreasing(es[1..])
  {
    forall i, j | 0 <= i < j < |es[1..]| ensures es[1..][i].time < es[1..][j].time {
      assert es[1..][i] == es[i + 1] && es[1..][j] == es[j + 1];
    }
  }

  /** A sub-trace of `es[1..]` is a sub-trace of `es`. */
  lemma {:induction false} TailMembers(es: seq<Emission>, rest: seq<Emission>)
    requires |es| > 0
    requires forall x :: x in rest ==> x in es[1..]
    ensures forall x :: x in rest ==> x in es
  {
  }

  /** Putting an earlier emission in front keeps a trace increasing. */
  lemma {:induction false} PrependIncreasing(e: Emission, es: seq<Emission>)
    requires StrictlyIncreasing(es)
    requires forall x :: x in es ==> e.time < x.time
    ensures StrictlyIncreasing([e] + es)
  {
    var r := [e] + es;
    forall i, j | 0 <= i < j < |r| ensures r[i].time < r[j].time {
      assert r[j] == es[j - 1];
      if i > 0 { assert r[i] == es[i - 1]; }
    }
  }

  // ---------------------------------------------------------------------
  // debounce(timeout)
  // ---------------------------------------------------------------------

  /** Whether `debounce(timeout)` passes on the `i`-th emission: no later
      value arrives less than `timeout` units after it. The last emission
      always survives, since the upstream never emits again. */
  predicate Survives(timeout: nat, es: seq<Emission>, i: int)
    requires 0 <= i < |es|
  {
    i == |es| - 1 || es[i + 1].time - es[i].time >= timeout
  }

  /** `debounce(timeout)`: the emissions that survive, in order. */
  function Debounce(timeout: nat, es: seq<Emission>): (r: seq<Emission>)
    requires StrictlyIncreasing(es)
    ensures StrictlyIncreasing(r)
    ensures forall e :: e in r ==> e in es
    ensures |es| > 0 ==> |r| > 0 && r[|r| - 1] == es[|es| - 1]
    decreases |es|
  {
    if |es| <= 1 then es
    else
      TailIncreasing(es);
      var rest := Debounce(timeout, es[1..]);
      assert rest[|rest| - 1] == es[|es| - 1];
      TailMembers(es, rest);
      if es[1].time - es[0].time >= timeout then
        LaterThanHead(es, rest);
        PrependIncreasing(es[0], rest);
        [es[0]] + rest
      else rest
  }

  /** An emission strictly earlier than every element of `es` is not in it. */
  lemma {:induction false} EarlierNotIn(e: Emission, es: seq<Emission>)
    requires forall x :: x in es ==> e.time < x.time
    ensures e !in es
  {
  }

  /** `debounce` passes on exactly the emissions that survive. */
  lemma {:induction false} DebounceKeeps(timeout: nat, es: seq<Emission>, i: int)
    requires StrictlyIncreasing(es) && 0 <= i < |es|
    ensures es[i] in Debounce(timeout, es) <==> Survives(timeout, es, i)
    decreases |es|
  {
    if |es| > 1 {
      TailIncreasing(es);
      var rest := Debounce(timeout, es[1..]);
      var r := Debounce(timeout, es);
      assert r == (if es[1].time - es[0].time >= timeout then [es[0]] + rest else rest);
      LaterThanHead(es, rest);
      if i == 0 {
        EarlierNotIn(es[0], rest);
      } else {
        DebounceKeeps(timeout, es[1..], i - 1);
        assert es[1..][i - 1] == es[i];
        assert es[i] != es[0] by { assert es[0].time < es[i].time; }
        assert es[i] in r <==> es[i] in rest;
        assert Survives(timeout, es, i) == Survives(timeout, es[1..], i - 1);
      }
    }
  }

  // ---------------------------------------------------------------------
  // distinctUntilChanged(), and MutableStateFlow's conflation of equal writes
  // ---------------------------------------------------------------------

  /** No two adjacent emissions carry equal values. */
  predicate NoRepeats(es: seq<Emission>) {
    forall i :: 0 < i < |es| ==> es[i - 1].value != es[i].value
  }

  /** Whether the `i`-th emission differs from the value seen just before
      it; before the first one, that is `last` (`None`: nothing seen yet). */
  predicate Changed(last: Option<string>, es: seq<Emission>, i: int)
    requires 0 <= i < |es|
  {
    if i == 0 then last != Some(es[0].value) else es[i - 1].value != es[i].value
  }

  /** Drops every emission equal to the value seen just before it, where
      `last` is the value seen before `es` began. Comparing with the
      previous input rather than the previous output is equivalent: a
      dropped value equals the last one passed on. */
  function DistinctAfter(last: Option<string>, es: seq<Emission>): (r: seq<Emission>)
    requires StrictlyIncreasing(es)
    ensures StrictlyIncreasing(r)
    ensures NoRepeats(r)
    ensures forall e :: e in r ==> e in es
    ensures |r| > 0 && last.Some? ==> r[0].value != last.value
    decreases |es|
  {
    if |es| == 0 then []
    else
      TailIncreasing(es);
      var rest := DistinctAfter(Some(es[0].value), es[1..]);
      TailMembers(es, rest);
      if last == Some(es[0].value) then rest
      else
        LaterThanHead(es, rest);
        PrependIncreasing(es[0], rest);
        [es[0]] + rest
  }

  /** `DistinctAfter` passes on exactly the emissions that changed value. */
  lemma {:induction false} DistinctKeeps(last: Option<string>, es: seq<Emission>, i: int)
    requires StrictlyIncreasing(es) && 0 <= i < |es|
    ensures es[i] in DistinctAfter(last, es) <==> Changed(last, es, i)
    decreases |es|
  {
    TailIncreasing(es);
    var rest := DistinctAfter(Some(es[0].value), es[1..]);
    var r := DistinctAfter(last, es);
    assert r == (if last == Some(es[0].value) then rest else [es[0]] + rest);
    LaterThanHead(es, rest);
    if i == 0 {
      EarlierNotIn(es[0], rest);
    } else {
      DistinctKeeps(Some(es[0].value), es[1..], i - 1);
      assert es[1..][i - 1] == es[i];
      assert es[i] != es[0] by { assert es[0].time < es[i].time; }
      assert es[i] in r <==> es[i] in rest;
      assert Changed(last, es, i) == Changed(Some(es[0].value), es[1..], i - 1);
    }
  }

  /** `distinctUntilChanged()`: the first emission always passes. */
  function DistinctUntilChanged(es: seq<Emission>): (r: seq<Emission>)
    requires StrictlyIncreasing(es)
    ensures StrictlyIncreasing(r) && NoRepeats(r)
    ensures forall e :: e in r ==> e in es
    ensures |es| > 0 ==> |r| > 0 && r[0] == es[0]
    ensures |es| > 0 ==> r[|r| - 1].value == es[|es| - 1].value
  {
    DistinctLast(None, es);
    DistinctAfter(None, es)
  }

  /** The input's last value always ends up last in the output: either the
      output's last emission carries it, or nothing passed because every
      value equalled `last` already. */
  lemma {:induction false} DistinctLast(last: Option<string>, es: seq<Emission>)
    requires StrictlyIncreasing(es)
    ensures var r := DistinctAfter(last, es);
            |es| > 0 ==> if |r| > 0 then r[|r| - 1].value == es[|es| - 1].value
            else last == Some(es[|es| - 1].value)
    decreases |es|
  {
    if |es| == 0 { return; }
    TailIncreasing(es);
    var rest := DistinctAfter(Some(es[0].value), es[1..]);
    var r := DistinctAfter(last, es);
    assert r == (if last == Some(es[0].value) then rest else [es[0]] + rest);
    if |es| > 1 {
      DistinctLast(Some(es[0].value), es[1..]);
      assert es[1..][|es| - 2] == es[|es| - 1];
      if |rest| == 0 && last != Some(es[0].value) {
        assert r == [es[0]];
      }
    } else {
      assert rest == [];
    }
  }

  /** The values of a trace, in order. */
  function Values(es: seq<Emission>): (vs: seq<string>)
    ensures |vs| == |es|
    ensures forall i :: 0 <= i < |es| ==> vs[i] == es[i].value
  {
    if es == [] then [] else [es[0].value] + Values(es[1..])
  }

  // ---------------------------------------------------------------------
  // Properties of the operators
  // ---------------------------------------------------------------------

  /** A trace without repeats passes `DistinctAfter` unchanged when its
      first value differs from `last`. */
  lemma {:induction false} DistinctAfterKeepsChanges(last: Option<string>, es: seq<Emission>)
    requires StrictlyIncreasing(es) && NoRepeats(es)
    requires |es| > 0 ==> last != Some(es[0].value)
    ensures DistinctAfter(last, es) == es
    decreases |es|
  {
    if |es| > 0 {
      DistinctAfterKeepsChanges(Some(es[0].value), es[1..]);
      assert [es[0]] + es[1..] == es;
    }
  }

  /** `distinctUntilChanged` is idempotent. */
  lemma {:induction false} DistinctIdempotent(es: seq<Emission>)
    requires StrictlyIncreasing(es)
    ensures DistinctUntilChanged(DistinctUntilChanged(es)) == DistinctUntilChanged(es)
  {
    DistinctAfterKeepsChanges(None, DistinctUntilChanged(es));
  }

  /** Every emission follows its predecessor by less than `timeout`. */
  predicate Burst(timeout: nat, es: seq<Emission>) {
    forall i :: 0 < i < |es| ==> es[i].time - es[i - 1].time < timeout
  }

  /** A burst: when every value follows its predecessor by less than
      `timeout`, `debounce` passes on the last value only. */
  lemma {:induction false} DebounceBurst(timeout: nat, es: seq<Emission>)
    requires StrictlyIncreasing(es) && |es| > 0 && Burst(timeout, es)
    ensures Debounce(timeout, es) == [es[|es| - 1]]
    decreases |es|
  {
    if |es| > 1 {
      assert es[1].time - es[0].time < timeout;
      assert Burst(timeout, es[1..]) by {
        forall i | 0 < i < |es[1..]| ensures es[1..][i].time - es[1..][i - 1].time < timeout {
          assert es[1..][i] == es[i + 1] && es[1..][i - 1] == es[i];
        }
      }
      DebounceBurst(timeout, es[1..]);
    }
  }
}

=== FILE: repository.dfy ===
/** `GitHubRepository`: turns the outcome of an HTTP call into a `Result`
    whose failure message names the cause. The two endpoints classify
    differently: only the user search recognises rate limiting, and the two
    use different "not found" and network-error texts. */
module GitHubRepository {
  import opened Wrappers
  import opened Api

  const RateLimitMessage := "GitHub API rate limit exceeded"
  const NoUsersMessage := "No users found"
  const UserNotFoundMessage := "User not found"
  const ApiErrorPrefix := "Error: "
  const SearchNetworkPrefix := "Network error: "
  const ReposNetworkMessage := "Network error"

  /** A non-2xx reply to the search that the rate-limit branch catches:
      status 403 with the remaining-requests header parsing to exactly 0. */
  predicate IsRateLimited<B>(resp: Response<B>) {
    resp.Replied? && resp.code == 403 && resp.rateLimitRemaining == Some(0)
  }

  /** `searchUsers`, after `apiService.searchUsers(query)` produced `resp`. */
  function SearchUsers(resp: Response<UserSearchResponse>): (r: Result<seq<UserDto>>)
    ensures r.Success? <==> resp.Replied? && IsSuccessful(resp.code)
    ensures r.Success? && resp.body.Some? ==> r.value == resp.body.value.items
    ensures r.Success? && resp.body.None? ==> r.value == []
    ensures r.Failure? ==> r.message.Some?
    ensures IsRateLimited(resp) ==> r == Failure(Some(RateLimitMessage))
    ensures (resp.Replied? && resp.code == 403 && resp.rateLimitRemaining != Some(0)) ==>
              r == Failure(Some(ApiErrorPrefix + resp.statusMessage))
    ensures resp.Replied? && resp.code == 404 ==> r == Failure(Some(NoUsersMessage))
    ensures (resp.Replied? && !IsSuccessful(resp.code) && resp.code != 403 && resp.code != 404) ==>
              r == Failure(Some(ApiErrorPrefix + resp.statusMessage))
    ensures resp.Threw? ==> r == Failure(Some(SearchNetworkPrefix + Interpolate(resp.localizedMessage)))
  {
    match resp
    case Threw(detail) =>
      Failure(Some(SearchNetworkPrefix + Interpolate(detail)))
    case Replied(code, statusMessage, body, rateLimitRemaining) =>
      if IsSuccessful(code) then
        Success(if body.Some? then body.value.items else [])
      else if code == 403 && rateLimitRemaining == Some(0) then
        Failure(Some(RateLimitMessage))
      else if code == 404 then
        Failure(Some(NoUsersMessage))
      else
        Failure(Some(ApiErrorPrefix + statusMessage))
  }

  /** `getUserRepositories`, after `apiService.getUserRepos(username)`
      produced `resp`. */
  function GetUserRepositories(resp: Response<seq<Repository>>): (r: Result<seq<Repository>>)
    ensures r.Success? <==> resp.Replied? && IsSuccessful(resp.code)
    ensures r.Success? ==> r.value == resp.body.GetOr([])
    ensures r.Failure? ==> r.message.Some?
    ensures resp.Replied? && resp.code == 404 ==> r == Failure(Some(UserNotFoundMessage))
    ensures (resp.Replied? && !IsSuccessful(resp.code) && resp.code != 404) ==>
              r == Failure(Some(ApiErrorPrefix + resp.statusMessage))
    ensures resp.Threw? ==> r == Failure(Some(ReposNetworkMessage))
  {
    match resp
    case Threw(_) =>
      Failure(Some(ReposNetworkMessage))
    case Replied(code, statusMessage, body, _) =>
      if IsSuccessful(code) then
        Success(body.GetOr([]))
      else if code == 404 then
        Failure(Some(UserNotFoundMessage))
      else
        Failure(Some(ApiErrorPrefix + statusMessage))
  }

  // ---------------------------------------------------------------------
  // Causes, stated from the response alone, and read back from the message
  // ---------------------------------------------------------------------

  /** Why a call failed, as a reader of the failure message can tell. */
  datatype Cause =
    | RateLimited
    | NotFound
    | ApiError(statusMessage: string)
    | NetworkError(detail: string)   // an exception, with its rendered message
    | NetworkFailure                 // an exception, reported without detail
    | Unrecognised

  /** The cause of a failed search, decided from the response's status,
      header and exception only (no message text involved). A 404 is
      never rate-limited because its code is not 403. */
  function SearchCause(resp: Response<UserSearchResponse>): (c: Option<Cause>)
    ensures c == None <==> resp.Replied? && IsSuccessful(resp.code)
    ensures c != Some(Unrecognised)
  {
    if resp.Threw? then Some(NetworkError(Interpolate(resp.localizedMessage)))
    else if IsSuccessful(resp.code) then None
    else if IsRateLimited(resp) then Some(RateLimited)
    else if resp.code == 404 then Some(NotFound)
    else Some(ApiError(resp.statusMessage))
  }

  /** The cause of a failed repository listing: no rate-limit case, and the
      exception's detail is not kept. */
  function ReposCause(resp: Response<seq<Repository>>): (c: Option<Cause>)
    ensures c == None <==> resp.Replied? && IsSuccessful(resp.code)
    ensures c != Some(RateLimited) && c != Some(Unrecognised)
  {
    if resp.Threw? then Some(NetworkFailure)
    else if IsSuccessful(resp.code) then None
    else if resp.code == 404 then Some(NotFound)
    else Some(ApiError(resp.statusMessage))
  }

  /** Reads a search failure message back into its cause. */
  function ParseSearchFailure(m: string): Cause
  {
    if m == RateLimitMessage then RateLimited
    else if m == NoUsersMessage then NotFound
    else if ApiErrorPrefix <= m then ApiError(m[|ApiErrorPrefix|..])
    else if SearchNetworkPrefix <= m then NetworkError(m[|SearchNetworkPrefix|..])
    else Unrecognised
  }

  /** Reads a repository-listing failure message back into its cause. */
  function ParseReposFailure(m: string): Cause
  {
    if m == UserNotFoundMessage then NotFound
    else if m == ReposNetworkMessage then NetworkFailure
    else if ApiErrorPrefix <= m then ApiError(m[|ApiErrorPrefix|..])
    else Unrecognised
  }

  /** The search's failure messages are unambiguous: parsing the message
      recovers exactly the cause decided from the response, including the
      server's status message and the exception's rendered detail. */
  lemma {:induction false} SearchMessageNamesCause(resp: Response<UserSearchResponse>)
    ensures SearchUsers(resp).Failure? <==> SearchCause(resp).Some?
    ensures SearchUsers(resp).Failure? ==>
              ParseSearchFailure(SearchUsers(resp).message.value) == SearchCause(resp).value
  {
    var r := SearchUsers(resp);
    if resp.Threw? {
      var m := r.message.value;
      assert m[..|SearchNetworkPrefix|] == SearchNetworkPrefix;
      assert m[0] == 'N' && m[1] == 'e';
      assert !(ApiErrorPrefix <= m) by { assert m[0] != ApiErrorPrefix[0]; }
    } else if r.Failure? && !IsRateLimited(resp) && resp.code != 404 {
      var m := r.message.value;
      assert m[..|ApiErrorPrefix|] == ApiErrorPrefix;
      assert m[0] == 'E';
    }
  }

  /** The same for the repository listing. */
  lemma {:induction false} ReposMessageNamesCause(resp: Response<seq<Repository>>)
    ensures GetUserRepositories(resp).Failure? <==> ReposCause(resp).Some?
    ensures GetUserRepositories(resp).Failure? ==>
              ParseReposFailure(GetUserRepositories(resp).message.value) == ReposCause(resp).value
  {
    var r := GetUserRepositories(resp);
    if resp.Replied? && !IsSuccessful(resp.code) && resp.code != 404 {
      var m := r.message.value;
      assert m[..|ApiErrorPrefix|] == ApiErrorPrefix;
      assert m[0] == 'E';
    }
  }

  /** The two endpoints agree on every non-2xx reply except 404 (different
      texts) and the rate-limited 403, which only the search recognises:
      the listing reports that 403 as a plain API error. */
  lemma {:induction false} EndpointsDifferOnlyAt404AndRateLimit(
    code: int, statusMessage: string, hdr: Option<int>,
    users: Option<UserSearchResponse>, repos: Option<seq<Repository>>)
    requires !IsSuccessful(code)
    ensures var s := SearchUsers(Replied(code, statusMessage, users, hdr));
            var g := GetUserRepositories(Replied(code, statusMessage, repos, hdr));
            && s.Failure? && g.Failure?
            && (code != 404 && !(code == 403 && hdr == Some(0)) ==> s.message == g.message)
            && (code == 404 ==> s.message != g.message)
            && (code == 403 && hdr == Some(0) ==>
                  s.message == Some(RateLimitMessage) && g.message == Some(ApiErrorPrefix + statusMessage))
  {
  }

  /** The two endpoints report an exception differently: the search appends
      the exception's message, the listing reports the bare text. */
  lemma {:induction false} NetworkErrorsDiffer(detail: Option<string>)
    ensures SearchUsers(Threw(detail)).message != GetUserRepositories(Threw(detail)).message
  {
  }
}

=== FILE: viewmodel.dfy ===
/** `MainViewModel`: the query holder, the search pipeline
    `debounce(300) -> distinctUntilChanged -> flatMapLatest -> collect`, and
    the repository-listing state.

    Coroutines are replaced by explicit inputs. Keystrokes are a timestamped
    trace. The lookups started by `flatMapLatest` are identified by a
    generation number. Their completions arrive as events tagged with that
    number; a completion whose tag is not the current generation belongs to
    an inner flow that `flatMapLatest` has cancelled, and has no effect. */
module MainViewModel {
  import opened Wrappers
  import opened Api
  import opened Flow

  /** The argument of `debounce` on the query flow. */
  const DebounceMillis: nat := 300

  // ---------------------------------------------------------------------
  // Blank queries
  // ---------------------------------------------------------------------

  /** Kotlin's `Char.isWhitespace`: Java's `isWhitespace` or `isSpaceChar`,
      i.e. the controls U+0009..U+000D and U+001C..U+001F, and the Unicode
      space, line and paragraph separators. */
  predicate IsWhitespace(c: char) {
    var n := c as int;
    || 0x09 <= n <= 0x0D
    || 0x1C <= n <= 0x20
    || n == 0xA0
    || n == 0x1680
    || 0x2000 <= n <= 0x200A
    || n == 0x2028 || n == 0x2029
    || n == 0x202F || n == 0x205F
    || n == 0x3000
  }

  /** Kotlin's `String.isBlank`: empty, or whitespace only. */
  predicate IsBlank(q: string) {
    forall i :: 0 <= i < |q| ==> IsWhitespace(q[i])
  }

  // ---------------------------------------------------------------------
  // The query holder and onSearchQueryChanged
  // ---------------------------------------------------------------------

  /** `_searchQuery`: its current value, and the emissions its collector has
      seen so far. */
  datatype QueryHolder = QueryHolder(value: string, emitted: seq<Emission>)

  /** The `init` block starts collecting at time `start` and at once sees
      the flow's initial value "". */
  function Launch(start: int): QueryHolder
  {
    QueryHolder("", [Emission(start, "")])
  }

  /** `onSearchQueryChanged(query)` at time `at`. The value is always
      replaced, but a `MutableStateFlow` emits only when the new value
      differs from the current one. */
  function OnSearchQueryChanged(h: QueryHolder, at: int, query: string): (r: QueryHolder)
    ensures r.value == query
    ensures |h.emitted| <= |r.emitted| <= |h.emitted| + 1
    ensures r.emitted[..|h.emitted|] == h.emitted
    ensures |r.emitted| > |h.emitted| <==> query != h.value
    ensures |r.emitted| > |h.emitted| ==> r.emitted[|h.emitted|] == Emission(at, query)
  {
    if query == h.value then h.(value := query)
    else QueryHolder(query, h.emitted + [Emission(at, query)])
  }

  /** The holder after a trace of `onSearchQueryChanged` calls. */
  function TypeAll(h: QueryHolder, calls: seq<Emission>): QueryHolder
    decreases |calls|
  {
    if calls == [] then h
    else TypeAll(OnSearchQueryChanged(h, calls[0].time, calls[0].value), calls[1..])
  }

  /** A well-formed keystroke trace: strictly after the start of collection,
      at strictly increasing times. */
  ghost predicate ValidCalls(start: int, calls: seq<Emission>) {
    StrictlyIncreasing([Emission(start, "")] + calls)
  }

  /** The holder ends with the last value typed. */
  lemma {:induction false} TypeAllValue(h: QueryHolder, calls: seq<Emission>)
    ensures TypeAll(h, calls).value == (if calls == [] then h.value else calls[|calls| - 1].value)
    decreases |calls|
  {
    if calls != [] {
      TypeAllValue(OnSearchQueryChanged(h, calls[0].time, calls[0].value), calls[1..]);
    }
  }

  /** The holder emits exactly what `distinctUntilChanged` would pass on of
      the raw calls, relative to its current value. */
  lemma {:induction false} TypeAllIsDistinct(h: QueryHolder, calls: seq<Emission>)
    requires StrictlyIncreasing(calls)
    ensures TypeAll(h, calls).emitted == h.emitted + DistinctAfter(Some(h.value), calls)
    decreases |calls|
  {
    if calls != [] {
      TailIncreasing(calls);
      var h' := OnSearchQueryChanged(h, calls[0].time, calls[0].value);
      TypeAllIsDistinct(h', calls[1..]);
      assert TypeAll(h, calls) == TypeAll(h', calls[1..]);
      var rest := DistinctAfter(Some(calls[0].value), calls[1..]);
      if calls[0].value != h.value {
        assert h'.emitted == h.emitted + [calls[0]];
        assert DistinctAfter(Some(h.value), calls) == [calls[0]] + rest;
        assert h'.emitted + rest == h.emitted + ([calls[0]] + rest);
      } else {
        assert h' == h;
        assert DistinctAfter(Some(h.value), calls) == rest;
      }
    }
  }

  /** What the query flow emits, from the start of collection, for a trace
      of `onSearchQueryChanged` calls: the keystroke trace, preceded by the
      initial "", with every repeat of the current value dropped. */
  function QueryFlow(start: int, calls: seq<Emission>): (flow: seq<Emission>)
    requires ValidCalls(start, calls)
    ensures flow == DistinctUntilChanged([Emission(start, "")] + calls)
    ensures StrictlyIncreasing(flow)
  {
    var all := [Emission(start, "")] + calls;
    assert all[1..] == calls;
    TailIncreasing(all);
    TypeAllIsDistinct(Launch(start), calls);
    TypeAll(Launch(start), calls).emitted
  }

  /** The values that reach `flatMapLatest`, in order. */
  function Settled(start: int, calls: seq<Emission>): (qs: seq<string>)
    requires ValidCalls(start, calls)
    ensures |qs| > 0
    ensures forall i :: 0 < i < |qs| ==> qs[i - 1] != qs[i]
    ensures qs[|qs| - 1] == (if calls == [] then "" else calls[|calls| - 1].value)
  {
    var all := [Emission(start, "")] + calls;
    assert all[|all| - 1].value == (if calls == [] then "" else calls[|calls| - 1].value);
    var debounced := Debounce(DebounceMillis, QueryFlow(start, calls));
    Values(DistinctUntilChanged(debounced))
  }

  // ---------------------------------------------------------------------
  // The search state machine: flatMapLatest and collect
  // ---------------------------------------------------------------------

  /** `searchResults` and `errorMessage`, the generation of the latest
      inner flow, and whether that flow is still waiting for its lookup. */
  datatype SearchState = SearchState(
    searchResults: seq<UserDto>,
    errorMessage: Option<string>,
    generation: nat,
    awaiting: bool)

  const InitialSearch := SearchState([], None, 0, false)

  /** How a lookup ends: `searchUsers` returned a result, an exception other
      than a cancellation escaped it, or its coroutine was cancelled. */
  datatype LookupOutcome =
    | Returned(result: Result<seq<UserDto>>)
    | Raised(message: Option<string>)
    | Cancelled

  /** A value leaving `distinctUntilChanged`, or the end of the lookup that
      the inner flow of generation `generation` started. */
  datatype SearchEvent =
    | Settle(query: string)
    | Complete(generation: nat, outcome: LookupOutcome)

  /** A call `repository.searchUsers(query)` made by inner flow `generation`. */
  datatype Request = Request(generation: nat, query: string)

  datatype Transition = Transition(next: SearchState, request: Option<Request>)

  const UnknownError := "Unknown error"
  const UnexpectedError := "Unexpected error"

  /** What the current inner flow does when its lookup ends. A failure or a
      non-cancellation exception sets the error message and publishes an
      empty list; the previous list is not kept. A cancellation is rethrown
      and publishes nothing. */
  function Publish(s: SearchState, o: LookupOutcome): (r: SearchState)
    ensures r.generation == s.generation && !r.awaiting
    ensures o.Returned? && o.result.Success? ==>
              r.searchResults == o.result.value && r.errorMessage == None
    ensures o.Returned? && o.result.Failure? ==>
              r.searchResults == [] && r.errorMessage == Some(o.result.message.GetOr(UnknownError))
    ensures o.Raised? ==>
              r.searchResults == [] && r.errorMessage == Some(o.message.GetOr(UnexpectedError))
    ensures o.Cancelled? ==>
              r.searchResults == s.searchResults && r.errorMessage == s.errorMessage
  {
    match o
    case Returned(result) =>
      if result.Success? then s.(searchResults := result.value, errorMessage := None, awaiting := false)
      else s.(searchResults := [], errorMessage := Some(result.message.GetOr(UnknownError)), awaiting := false)
    case Raised(message) =>
      s.(searchResults := [], errorMessage := Some(message.GetOr(UnexpectedError)), awaiting := false)
    case Cancelled =>
      s.(awaiting := false)
  }

  /** One event. A settled value always starts a new generation, which
      supersedes the previous inner flow. A blank value clears the error and
      publishes an empty list at once, without a lookup; any other value
      issues a lookup and leaves the published state alone until it ends. */
  function Step(s: SearchState, e: SearchEvent): (t: Transition)
    ensures e.Settle? ==> t.next.generation == s.generation + 1
    ensures e.Settle? ==> t.next.awaiting == !IsBlank(e.query)
    ensures e.Settle? && IsBlank(e.query) ==>
              t.next.searchResults == [] && t.next.errorMessage == None && t.request == None
    ensures e.Settle? && !IsBlank(e.query) ==>
              && t.next.searchResults == s.searchResults && t.next.errorMessage == s.errorMessage
              && t.request == Some(Request(s.generation + 1, e.query))
    ensures e.Complete? ==> t.request == None && t.next.generation == s.generation
    ensures e.Complete? && (e.generation != s.generation || !s.awaiting) ==> t.next == s
    ensures e.Complete? && e.generation == s.generation && s.awaiting ==> t.next == Publish(s, e.outcome)
  {
    match e
    case Settle(query) =>
      var g := s.generation + 1;
      if IsBlank(query) then Transition(SearchState([], None, g, false), None)
      else Transition(s.(generation := g, awaiting := true), Some(Request(g, query)))
    case Complete(g, outcome) =>
      if g == s.generation && s.awaiting then Transition(Publish(s, outcome), None)
      else Transition(s, None)
  }

  /** The final state after a sequence of events, and the lookups issued on
      the way, in order. */
  datatype Replay = Replay(final: SearchState, requests: seq<Request>)

  function CountSettles(events: seq<SearchEvent>): nat {
    if events == [] then 0
    else (if events[0].Settle? then 1 else 0) + CountSettles(events[1..])
  }

  function CountLookups(events: seq<SearchEvent>): nat {
    if events == [] then 0
    else (if events[0].Settle? && !IsBlank(events[0].query) then 1 else 0) + CountLookups(events[1..])
  }

  /** Runs `events` from `s`. Each settled value advances the generation by
      one, each non-blank one issues exactly one lookup, and the lookups
      carry fresh, strictly increasing generations and non-blank queries. */
  function Run(s: SearchState, events: seq<SearchEvent>): (r: Replay)
    ensures r.final.generation == s.generation + CountSettles(events)
    ensures |r.requests| == CountLookups(events)
    ensures forall k :: 0 <= k < |r.requests| ==>
              !IsBlank(r.requests[k].query) && s.generation < r.requests[k].generation <= r.final.generation
    ensures forall j, k :: 0 <= j < k < |r.requests| ==> r.requests[j].generation < r.requests[k].generation
    decreases |events|
  {
    if events == [] then Replay(s, [])
    else
      var t := Step(s, events[0]);
      var rest := Run(t.next, events[1..]);
      if t.request.Some? then Replay(rest.final, [t.request.value] + rest.requests)
      else Replay(rest.final, rest.requests)
  }

  /** The events of the pipeline for settled values `qs`, when no lookup
      completes in between. */
  function Settles(qs: seq<string>): (events: seq<SearchEvent>)
    ensures |events| == |qs|
    ensures forall i :: 0 <= i < |qs| ==> events[i] == Settle(qs[i])
  {
    if qs == [] then [] else [Settle(qs[0])] + Settles(qs[1..])
  }

  /** The non-blank values of `qs`, in order. */
  function NonBlank(qs: seq<string>): seq<string> {
    if qs == [] then []
    else (if IsBlank(qs[0]) then [] else [qs[0]]) + NonBlank(qs[1..])
  }

  function Queries(rs: seq<Request>): seq<string> {
    if rs == [] then [] else [rs[0].query] + Queries(rs[1..])
  }

  // ---------------------------------------------------------------------
  // fetchRepositories
  // ---------------------------------------------------------------------

  /** `UiState` of the repository-listing screen. */
  datatype UiState = Idle | Loading | Success(repos: seq<Repository>) | Error(message: string)

  /** The states `fetchRepositories` publishes once `getUserRepositories`
      has produced `result`: `Loading`, then the outcome. The source's third
      branch (neither success nor failure) cannot be reached. */
  function FetchRepositories(result: Result<seq<Repository>>): (published: seq<UiState>)
    ensures |published| == 2 && published[0] == Loading
    ensures published[1].Success? <==> result.Success?
    ensures result.Success? ==> published[1].repos == result.value
    ensures result.Failure? ==> published[1] == Error(result.message.GetOr(UnknownError))
  {
    if result.Success? then [Loading, UiState.Success(result.value)]
    else [Loading, Error(result.message.GetOr(UnknownError))]
  }

  /** What happens to `state` as launched fetches progress: each launch
      publishes `Loading`, each finished fetch publishes its outcome. */
  datatype FetchEvent = FetchStarted | FetchFinished(result: Result<seq<Repository>>)

  function FetchStep(u: UiState, e: FetchEvent): UiState
  {
    match e
    case FetchStarted => Loading
    case FetchFinished(result) => FetchRepositories(result)[1]
  }

  function FetchRun(u: UiState, events: seq<FetchEvent>): UiState
    decreases |events|
  {
    if events == [] then u else FetchRun(FetchStep(u, events[0]), events[1..])
  }
}

=== FILE: viewmodel_properties.dfy ===
/** Properties of the search pipeline and the repository-listing state,
    over whole event sequences and keystroke traces. */
module ViewModelProperties {
  import opened Wrappers
  import opened Api
  import opened Flow
  import opened GitHubRepository
  import opened MainViewModel

  // ---------------------------------------------------------------------
  // Latest wins
  // ---------------------------------------------------------------------

  /** Completions of any generation other than the current one change
      nothing and issue nothing. */
  lemma {:induction false} StaleCompletionsIgnored(s: SearchState, events: seq<SearchEvent>)
    requires forall k :: 0 <= k < |events| ==> events[k].Complete? && events[k].generation != s.generation
    ensures Run(s, events) == Replay(s, [])
    decreases |events|
  {
    if events != [] {
      StaleCompletionsIgnored(s, events[1..]);
    }
  }

  /** Running `[e] + rest` is one step followed by the rest. */
  lemma {:induction false} RunCons(s: SearchState, e: SearchEvent, rest: seq<SearchEvent>)
    ensures var t := Step(s, e);
            var r := Run(t.next, rest);
            Run(s, [e] + rest) == Replay(r.final, (if t.request.Some? then [t.request.value] else []) + r.requests)
  {
    assert ([e] + rest)[1..] == rest;
  }

  /** Once lookup B of the current generation has ended, a late
      completion of the earlier lookup A changes nothing. */
  lemma {:induction false} LateCompletionAfterLatest(s2: SearchState, g1: nat, a: LookupOutcome, b: LookupOutcome)
    requires s2.awaiting && g1 < s2.generation
    ensures Run(s2, [Complete(s2.generation, b), Complete(g1, a)]) == Replay(Publish(s2, b), [])
  {
    var s3 := Publish(s2, b);
    assert Step(s2, Complete(s2.generation, b)).next == s3;
    RunCons(s3, Complete(g1, a), []);
    assert Run(s3, [Complete(g1, a)]) == Replay(s3, []);
    RunCons(s2, Complete(s2.generation, b), [Complete(g1, a)]);
  }

  /** Lookup A for `q1` is issued before lookup B for `q2`, and A ends after
      B: A's outcome is discarded, and B's outcome is applied to the state
      as it stood before both (the list and message are untouched while
      the lookups are in flight). */
  lemma {:induction false} OutOfOrderCompletion(s: SearchState, q1: string, q2: string, a: LookupOutcome, b: LookupOutcome)
    requires !IsBlank(q1) && !IsBlank(q2)
    ensures Run(s, [Settle(q1), Settle(q2), Complete(s.generation + 2, b), Complete(s.generation + 1, a)])
         == Replay(Publish(s.(generation := s.generation + 2, awaiting := true), b),
                   [Request(s.generation + 1, q1), Request(s.generation + 2, q2)])
  {
    var g1 := s.generation + 1;
    var g2 := s.generation + 2;
    var s1 := Step(s, Settle(q1)).next;
    var s2 := Step(s1, Settle(q2)).next;
    assert s2 == s.(generation := g2, awaiting := true);
    var tail := [Complete(g2, b), Complete(g1, a)];
    LateCompletionAfterLatest(s2, g1, a, b);
    RunCons(s1, Settle(q2), tail);
    assert Run(s1, [Settle(q2)] + tail) == Replay(Publish(s2, b), [Request(g2, q2)]);
    RunCons(s, Settle(q1), [Settle(q2)] + tail);
    assert [Settle(q1)] + ([Settle(q2)] + tail) == [Settle(q1), Settle(q2), Complete(g2, b), Complete(g1, a)];
  }

  /** A lookup still in flight when the input is cleared never overwrites
      the cleared state, whatever it ends with. */
  lemma {:induction false} BlankSupersedesInFlight(s: SearchState, q: string, blank: string, o: LookupOutcome)
    requires !IsBlank(q) && IsBlank(blank)
    ensures Run(s, [Settle(q), Settle(blank), Complete(s.generation + 1, o)])
         == Replay(SearchState([], None, s.generation + 2, false), [Request(s.generation + 1, q)])
  {
    var g1 := s.generation + 1;
    var s1 := Step(s, Settle(q)).next;
    var s2 := Step(s1, Settle(blank)).next;
    assert s2 == SearchState([], None, g1 + 1, false);
    RunCons(s2, Complete(g1, o), []);
    assert Run(s2, [Complete(g1, o)]) == Replay(s2, []);
    RunCons(s1, Settle(blank), [Complete(g1, o)]);
    assert Run(s1, [Settle(blank), Complete(g1, o)]) == Replay(s2, []);
    RunCons(s, Settle(q), [Settle(blank), Complete(g1, o)]);
    assert [Settle(q)] + [Settle(blank), Complete(g1, o)] == [Settle(q), Settle(blank), Complete(g1, o)];
  }

  /** A lookup is published at most once: a second completion for the same
      generation has no effect. */
  lemma {:induction false} CompletionAppliedOnce(s: SearchState, g: nat, first: LookupOutcome, second: LookupOutcome)
    ensures var once := Step(s, Complete(g, first)).next;
            Step(once, Complete(g, second)).next == once
  {
  }

  /** Cancellation is never turned into an error message, and publishes no
      list. */
  lemma {:induction false} CancellationNeverReported(s: SearchState, events: seq<SearchEvent>)
    requires forall k :: 0 <= k < |events| ==> events[k].Complete? && events[k].outcome.Cancelled?
    ensures Run(s, events).final.searchResults == s.searchResults
    ensures Run(s, events).final.errorMessage == s.errorMessage
    ensures Run(s, events).requests == []
    decreases |events|
  {
    if events != [] {
      var s' := Step(s, events[0]).next;
      CancellationNeverReported(s', events[1..]);
    }
  }

  // ---------------------------------------------------------------------
  // From keystrokes to lookups
  // ---------------------------------------------------------------------

  /** The lookups issued for a sequence of settled values are exactly the
      non-blank ones, in order. */
  lemma {:induction false} LookupsAreNonBlankSettles(s: SearchState, qs: seq<string>)
    ensures Queries(Run(s, Settles(qs)).requests) == NonBlank(qs)
    decreases |qs|
  {
    if qs != [] {
      var s' := Step(s, Settle(qs[0])).next;
      assert Settles(qs)[1..] == Settles(qs[1..]);
      LookupsAreNonBlankSettles(s', qs[1..]);
    }
  }

  /** An emission of the query flow followed by another one less than 300
      units later never leaves `distinctUntilChanged`, so never reaches
      `flatMapLatest`. The last emission always passes `debounce`. */
  lemma {:induction false} QuickValueNeverSettles(start: int, calls: seq<Emission>, i: int)
    requires ValidCalls(start, calls)
    requires 0 <= i < |QueryFlow(start, calls)|
    ensures var flow := QueryFlow(start, calls);
            && (i + 1 < |flow| && flow[i + 1].time - flow[i].time < DebounceMillis ==>
                  flow[i] !in DistinctUntilChanged(Debounce(DebounceMillis, flow)))
            && flow[|flow| - 1] in Debounce(DebounceMillis, flow)
  {
    var flow := QueryFlow(start, calls);
    DebounceKeeps(DebounceMillis, flow, i);
    DebounceKeeps(DebounceMillis, flow, |flow| - 1);
  }

  /** Two equal values in a row after `debounce`: the second one is dropped,
      so it causes neither a lookup nor the blank handling. */
  lemma {:induction false} RepeatNeverSettles(debounced: seq<Emission>, i: int)
    requires StrictlyIncreasing(debounced)
    requires 0 < i < |debounced| && debounced[i - 1].value == debounced[i].value
    ensures debounced[i] !in DistinctUntilChanged(debounced)
  {
    DistinctKeeps(None, debounced, i);
  }

  /** Typing a burst, each keystroke changing the text and following the
      previous one (or the start) by less than 300 units: only the final
      text settles, and it is looked up once, as generation 1, when it is
      not blank. */
  lemma {:induction false} TypingBurst(start: int, calls: seq<Emission>)
    requires ValidCalls(start, calls) && |calls| > 0
    requires NoRepeats([Emission(start, "")] + calls)
    requires Burst(DebounceMillis, [Emission(start, "")] + calls)
    ensures Settled(start, calls) == [calls[|calls| - 1].value]
    ensures !IsBlank(calls[|calls| - 1].value) ==>
              Run(InitialSearch, Settles(Settled(start, calls))).requests == [Request(1, calls[|calls| - 1].value)]
  {
    var all := [Emission(start, "")] + calls;
    var last := all[|all| - 1];
    DistinctAfterKeepsChanges(None, all);
    assert QueryFlow(start, calls) == all;
    DebounceBurst(DebounceMillis, all);
    SingleSettles(last);
    var q := calls[|calls| - 1].value;
    assert last.value == q;
    assert Settled(start, calls) == [q];
    RunCons(InitialSearch, Settle(q), []);
    assert Settles([q]) == [Settle(q)] + [];
  }

  /** A single debounced emission settles as itself. */
  lemma {:induction false} SingleSettles(e: Emission)
    ensures Values(DistinctUntilChanged([e])) == [e.value]
  {
    assert [e][1..] == [];
    assert DistinctAfter(Some(e.value), []) == [];
    assert DistinctUntilChanged([e]) == [e];
    assert Values([e]) == [e.value] + Values([]);
  }

  /** The keystrokes "t", "to", "tor", "torvalds", 100 units apart. */
  function TorvaldsCalls(): seq<Emission> {
    [Emission(100, "t"), Emission(200, "to"), Emission(300, "tor"), Emission(400, "torvalds")]
  }

  /** Those keystrokes form a well-formed burst of changing values. */
  lemma {:induction false} TorvaldsCallsAreBurst()
    ensures ValidCalls(0, TorvaldsCalls())
    ensures NoRepeats([Emission(0, "")] + TorvaldsCalls())
    ensures Burst(DebounceMillis, [Emission(0, "")] + TorvaldsCalls())
  {
    var all := [Emission(0, "")] + TorvaldsCalls();
    assert all == [Emission(0, ""), Emission(100, "t"), Emission(200, "to"), Emission(300, "tor"), Emission(400, "torvalds")];
    IncreasingBySteps(all);
    assert all[0].value != all[1].value by { assert |all[0].value| == 0 && |all[1].value| == 1; }
    assert all[1].value != all[2].value by { assert |all[1].value| == 1 && |all[2].value| == 2; }
    assert all[2].value != all[3].value by { assert |all[2].value| == 2 && |all[3].value| == 3; }
    assert all[3].value != all[4].value by { assert |all[3].value| == 3 && |all[4].value| == 8; }
  }

  /** Typing "t", "to", "tor", "torvalds" 100 units apart issues exactly one
      lookup, for "torvalds". */
  lemma {:induction false} TorvaldsTyping()
    ensures ValidCalls(0, TorvaldsCalls())
    ensures Settled(0, TorvaldsCalls()) == ["torvalds"]
    ensures Run(InitialSearch, Settles(Settled(0, TorvaldsCalls()))).requests == [Request(1, "torvalds")]
  {
    TorvaldsCallsAreBurst();
    assert TorvaldsCalls()[|TorvaldsCalls()| - 1].value == "torvalds";
    assert !IsBlank("torvalds") by { assert !IsWhitespace("torvalds"[0]); }
    TypingBurst(0, TorvaldsCalls());
  }

  /** When the lookup for "torvalds" returns torvalds's entry, that entry is
      the published list and no error is shown. */
  lemma {:induction false} TorvaldsLookup()
    ensures var torvalds := UserDto("torvalds", "u1");
            var reply := Replied(200, "OK", Some(UserSearchResponse(1, false, [torvalds])), None);
            var s := Run(InitialSearch, [Settle("torvalds"), Complete(1, Returned(SearchUsers(reply)))]).final;
            s.searchResults == [torvalds] && s.errorMessage == None
  {
    assert !IsBlank("torvalds") by { assert !IsWhitespace("torvalds"[0]); }
    var torvalds := UserDto("torvalds", "u1");
    var reply := Replied(200, "OK", Some(UserSearchResponse(1, false, [torvalds])), None);
    var o := Returned(SearchUsers(reply));
    assert SearchUsers(reply) == Wrappers.Success([torvalds]);
    var s1 := Step(InitialSearch, Settle("torvalds")).next;
    assert s1.generation == 1 && s1.awaiting;
    var s2 := Step(s1, Complete(1, o)).next;
    assert s2.searchResults == [torvalds] && s2.errorMessage == None;
    RunCons(s1, Complete(1, o), []);
    RunCons(InitialSearch, Settle("torvalds"), [Complete(1, o)]);
    assert [Settle("torvalds")] + [Complete(1, o)] == [Settle("torvalds"), Complete(1, o)];
  }

  // ---------------------------------------------------------------------
  // The search pipeline fed by the repository
  // ---------------------------------------------------------------------

  /** What the current lookup publishes for each kind of response. A
      failure always empties the list, and the "Unknown error" fallback is
      never shown because the repository always names a message. */
  lemma {:induction false} SearchResponsePublished(s: SearchState, resp: Response<UserSearchResponse>)
    ensures var r := Publish(s, Returned(SearchUsers(resp)));
            && r.errorMessage != Some(UnknownError)
            && (resp.Replied? && IsSuccessful(resp.code) ==>
                  r.errorMessage == None && r.searchResults == (if resp.body.Some? then resp.body.value.items else []))
            && (IsRateLimited(resp) ==> r.errorMessage == Some(RateLimitMessage) && r.searchResults == [])
            && (resp.Replied? && resp.code == 404 ==> r.errorMessage == Some(NoUsersMessage) && r.searchResults == [])
  {
    var m := SearchUsers(resp);
    if m.Failure? {
      var msg := m.message.value;
      if resp.Threw? {
        assert msg[0] == 'N' && msg[1] == 'e';
      } else if !IsRateLimited(resp) && resp.code != 404 {
        assert msg[0] == 'E';
      }
    }
  }

  // ---------------------------------------------------------------------
  // fetchRepositories
  // ---------------------------------------------------------------------

  /** `fetchRepositories` fed by `getUserRepositories`: `Loading`, then the
      listed repositories, "User not found" on 404, the bare
      "Network error" on an exception; never the "Unknown error" fallback. */
  lemma {:induction false} FetchFromResponse(resp: Response<seq<Repository>>)
    ensures var published := FetchRepositories(GetUserRepositories(resp));
            && published[0] == Loading
            && (resp.Replied? && IsSuccessful(resp.code) ==> published[1] == UiState.Success(resp.body.GetOr([])))
            && (resp.Replied? && resp.code == 404 ==> published[1] == Error(UserNotFoundMessage))
            && (resp.Threw? ==> published[1] == Error(ReposNetworkMessage))
            && published[1] != Error(UnknownError)
  {
    var r := GetUserRepositories(resp);
    if r.Failure? && resp.Replied? && resp.code != 404 {
      assert r.message.value[0] == 'E';
    }
  }

  /** `FetchStep` ignores the state it is given: once any sequence of fetch
      events is followed by `e`, the state is what `e` alone makes of any
      starting state. */
  lemma {:induction false} LastFetchEventDecides(u: UiState, events: seq<FetchEvent>, e: FetchEvent, other: UiState)
    ensures FetchRun(u, events + [e]) == FetchStep(other, e)
    decreases |events|
  {
    if events == [] {
      assert [e][1..] == [];
    } else {
      assert (events + [e])[1..] == events[1..] + [e];
      LastFetchEventDecides(FetchStep(u, events[0]), events[1..], e, other);
    }
  }

  /** Fetches are not ordered by launch: whichever finishes last decides
      the state, even if a later fetch was started after it. */
  lemma {:induction false} LastFinishedFetchWins(u: UiState, events: seq<FetchEvent>, result: Result<seq<Repository>>)
    ensures FetchRun(u, events + [FetchFinished(result)]) == FetchRepositories(result)[1]
  {
    LastFetchEventDecides(u, events, FetchFinished(result), u);
  }

  /** Between a launch and its outcome the screen shows `Loading`. */
  lemma {:induction false} LoadingAfterLaunch(u: UiState, events: seq<FetchEvent>)
    requires |events| > 0 && events[|events| - 1] == FetchStarted
    ensures FetchRun(u, events) == Loading
  {
    var before := events[..|events| - 1];
    assert events == before + [FetchStarted];
    LastFetchEventDecides(u, before, FetchStarted, u);
  }
}

=== FILE: wrappers.dfy ===
/** Failure-carrying datatypes shared by the repository and the view model.
    `Result` mirrors Kotlin's `kotlin.Result`: a failure holds a `Throwable`,
    and all the model needs of it is its nullable `message`. */
module Wrappers {

  /** Kotlin's nullable type `T?`: `None` stands for `null`. */
  datatype Option<+T> = None | Some(value: T) {

    /** The elvis operator `this ?: default`. */
    function GetOr(default: T): T
    {
      match this
      case Some(v) => v
      case None => default
    }
  }

  /** `kotlin.Result<T>`: a success value, or a failure whose throwable
      carries a possibly-null message. */
  datatype Result<+T> = Success(value: T) | Failure(message: Option<string>)
}
